=== FILE: README.md ===
# Upspin keygen: secret seeds and key rotation

This project models the non-I/O core of the `upspin keygen` command
(`cmd/upspin/keygen.go`). It proves properties of the model in Dafny. It
has two parts.

* **The textual secret seed.** A seed is 128 bits written as eight proquints,
  five letters each. A generated seed uses the layout `g-g-g-g.g-g-g-g`
  (47 characters). On input, `validSecretSeed` checks only the length and
  index 5. The 16 bytes are read back by slicing `[6i, 6i+5)` for each word.
  The proquint codec's own code is not part of this model. It is a pair of
  function values (`Proquint.Codec`). Two predicates say what keygen relies
  on: `WellFormed` (every encoding has five characters) and `Inverts` (Decode
  undoes Encode).
* **Saving, rotating and writing key files** (`keygenCommand`, `createKeys`,
  `saveKeys`, `writeKeys`, `writeKeyFile`). These are pure functions over an
  abstract file system (`FileSystem.FileSys`). It holds a map from path to
  contents, the paths that cannot be read or written, pre-formatted
  modification times, and the history of completed writes. A call to
  `Exitf` becomes an `Outcome` value. That value carries the file system as
  the exit left it.

Modules: `Results` (Result), `BigEndian` (bytes, 16-bit words,
`binary.BigEndian`), `Proquint` (the codec interface), `Strings`
(`strings.TrimSpace`), `SecretSeed` (the seed format), `FileSystem` (the
abstract file system) and `Keygen` (the command).

One consequence is proved rather than assumed (`Keygen.RerunWithRotateArchivesAgain`).
`keygenCommand` stores the private key as `TrimSpace(private) + " # " + seed + "\n"`.
`saveKeys` compares the stored file with the bare private key. So its "no
need to save duplicates" branch never fires for a secret file that keygen
itself wrote. Running keygen with `-rotate` and the same seed therefore
appends the current pair to `secret2.upspinkey` once more.

## Model

| member | source | states |
|---|---|---|
| `BigEndian.Uint16` | cmd/upspin/keygen.go:104 | The word read from two bytes has the first byte as its high byte and the second as its low byte. |
| `BigEndian.PutUint16` | cmd/upspin/keygen.go:125 | Storing a word yields two bytes whose big-endian value is the word. |
| `BigEndian.PutThenRead` | cmd/upspin/keygen.go:124-126 | Reading back a stored word gives the word. |
| `BigEndian.ReadThenPut` | cmd/upspin/keygen.go:104 | Storing a word that was read from two bytes gives those same two bytes. |
| `Strings.TrimSpace` | cmd/upspin/keygen.go:116 | The result starts and ends with a character that is not white space. It occurs in the input with only white space around it. It is empty exactly when the input is all white space. |
| `Strings.TrimSpaceUnique` | cmd/upspin/keygen.go:116 | Any string that is tight and has only white space around it in s equals TrimSpace(s). So the contract above determines the function. |
| `Strings.TrimSpaceIdempotent` | cmd/upspin/keygen.go:116 | Trimming an already trimmed string changes nothing. |
| `SecretSeed.GroupAt` | cmd/upspin/keygen.go:124-126 | For a seed that `validSecretSeed` accepts, every decode slice `[6i, 6i+5)` with i < 8 is in bounds. The largest one ends at index 47. The slice is the five characters at those positions. |
| `SecretSeed.DecodeWords` | cmd/upspin/keygen.go:124-126 | The first n rounds of the decode loop write 2n bytes. |
| `SecretSeed.SeedBytes` | cmd/upspin/keygen.go:124-126 | Decoding an accepted seed yields exactly 16 bytes. |
| `SecretSeed.InterleaveLayout` | cmd/upspin/keygen.go:106 | When the groups have five characters each, the `%s-%s-…` interleaving puts group i at `[6i, 6i+5)` and separator i at `6i+5`. Its length is 6·groups − 1. |
| `SecretSeed.SeedStringLayout` | cmd/upspin/keygen.go:102-106 | A generated seed has 47 characters. It has group i (the encoding of word i) at `[6i, 6i+5)` and separators `-,-,-,.,-,-,-`. So it has '-' at index 5 and passes `validSecretSeed` at line 119. |
| `SecretSeed.SeedRoundTrip` | cmd/upspin/keygen.go:104-126 | If proquint Decode undoes Encode, decoding a generated seed gives back the 16 bytes it was generated from. |
| `SecretSeed.DecodePrefix` | cmd/upspin/keygen.go:124-126 | For a generated seed, each prefix of the decode loop reproduces the same prefix of the secret bytes. |
| `SecretSeed.SeparatorsIgnored` | cmd/upspin/keygen.go:124-126 | Two accepted seeds that differ only at separator positions 5, 11, …, 41 decode to the same 16 bytes. Punctuation is ignored on input. |
| `SecretSeed.SameGroupsSameBytes` | cmd/upspin/keygen.go:124-126 | Seeds with equal groups give equal decoded bytes. |
| `SecretSeed.ValidityIgnoresOtherCharacters` | cmd/upspin/keygen.go:135-139 | `validSecretSeed` checks nothing but the length and index 5. Changing any other character of an accepted seed keeps it accepted. |
| `FileSystem.PathJoinInjective` | cmd/upspin/keygen.go:185-187 | Two files of one directory have the same path exactly when their names are equal. |
| `FileSystem.ReadFile` | cmd/upspin/keygen.go:191-201 | A read succeeds exactly when the file exists and is readable, and it returns the file's contents. A missing file is reported as not existing, which `os.IsNotExist` tests. |
| `FileSystem.WriteFile` | cmd/upspin/keygen.go:144-168 | `writeKeyFile` fails with a permission error on an unwritable path and changes nothing. Otherwise the file holds exactly the key (O_TRUNC), no other file changes, and one truncating write is recorded. |
| `FileSystem.AppendFile` | cmd/upspin/keygen.go:214-229 | With O_APPEND and O_CREATE, the earlier contents (or nothing) stay and the new data follows them. No other file changes. |
| `FileSystem.ReadAfterWrite` | cmd/upspin/keygen.go:144-168 | A file that is readable after a successful write holds what was written. |
| `FileSystem.AppendKeepsPrefix` | cmd/upspin/keygen.go:214 | The archive is append-only: what it held before is a prefix of what it holds after. |
| `Keygen.KeyFilesDistinct` | cmd/upspin/keygen.go:185-187 | `public.upspinkey`, `secret.upspinkey` and `secret2.upspinkey` are three different paths. |
| `Keygen.CreateKeys` | cmd/upspin/keygen.go:90-133 | Keys come only from a seed that `validSecretSeed` accepts. `ee.CreateKeys` gets exactly the bytes that seed decodes to. The seed is the generated one when there is no flag. It is the flag itself when the flag looks like a seed. Otherwise it is the trimmed contents of the file the flag names. A generated seed, or a flag that looks like a seed, never produces an Invalid or IO error. A flag that looks like a seed, or a readable seed file whose trimmed contents pass the check, yields keys exactly when `ee.CreateKeys` succeeds on the decoded bytes. |
| `Keygen.SeedFlagRecreatesKeys` | cmd/upspin/keygen.go:78-110 | If Decode undoes Encode, passing a generated seed back as the flag gives exactly the keys of the run that generated it. The seed to pass comes from the comment written into the secret file (line 69). The command printed at line 80 uses the empty `secretseed` flag, so it carries no seed. |
| `Keygen.FreshSeedUsesEntropy` | cmd/upspin/keygen.go:99-128 | With no seed flag, if Decode undoes Encode, `ee.CreateKeys` gets exactly the generated entropy. The returned seed is its encoding. |
| `Keygen.CreateKeysErrors` | cmd/upspin/keygen.go:111-123 | For a flag that is not itself a seed, an unreadable file gives an IO error. A file whose trimmed contents fail validation gives Invalid. Neither creates keys. |
| `Keygen.SaveKeys` | cmd/upspin/keygen.go:183-236 | Only the archive can change, and only by appending. That happens only when rotating away from a readable prior pair that differs from the new one. The appended record is `"# EE" + modtime + "\n" + public + private`. It exits on rotate without prior keys and on prior keys without rotate. It fails with an error exactly when one of three things happens: the secret file exists but cannot be read, the public file cannot be read during a rotation, or the archive cannot be written when a differing pair must be archived. |
| `Keygen.SaveKeysDecisions` | cmd/upspin/keygen.go:191-229 | The decision table. Absent+rotate exits. Absent without rotate is a no-op. Present without rotate exits. Present+rotate with an identical pair is a no-op. Present+rotate with a different pair and a writable archive appends the prior pair. |
| `Keygen.WriteKeys` | cmd/upspin/keygen.go:171-181 | The secret file is written before the public one. A failure on the secret file leaves everything untouched. A failure on the public file leaves only the secret file written. No other file changes. |
| `Keygen.KeygenCommand` | cmd/upspin/keygen.go:52-73 | An unknown curve exits before any key is created. Every exit before the key files are written (bad curve, createKeys error, saveKeys exit or error) leaves the file system unchanged. A key-writing failure happens only after the curve was known, keys were created and saveKeys saved. It leaves the archive as saveKeys left it and the public file as it was. The secret file then holds the new stored key, unless the secret file was the one that could not be written. The files written are archive, then secret, then public, or a prefix of that order, or secret then public. The archive only grows. On completion both key files were written: the public key, and `TrimSpace(private) + " # " + seed + "\n"`. A run completes exactly when the curve is known, keys are created, saveKeys saves, and both key files are writable. No file other than the archive and the two key files changes. |
| `Keygen.FirstRunCompletes` | cmd/upspin/keygen.go:52-73 | Without `-rotate`, keygen completes when the curve is known, keys can be created, no prior secret file exists and both key files are writable. |
| `Keygen.RotationCompletes` | cmd/upspin/keygen.go:52-73 | With `-rotate`, keygen completes when the curve is known, keys can be created, the prior pair is readable, and the archive and both key files are writable. |
| `Keygen.WriteFailureAfterSave` | cmd/upspin/keygen.go:65-72 | If writing the keys fails after a save, the archive is as the save left it and the public file is as before the run. The secret file holds the new stored key unless it is unwritable, in which case it is as before. |
| `Keygen.WriteAfterSave` | cmd/upspin/keygen.go:65-72 | At most one archive append followed by the key writes keeps that order and keeps the archive append-only. |
| `Keygen.NoRotateNeverArchives` | cmd/upspin/keygen.go:191-204 | Without `-rotate`, the archive is untouched, only the key files are written, and keygen completes only if no prior secret file existed. |
| `Keygen.RotateArchivesPriorPair` | cmd/upspin/keygen.go:205-229 | A completed rotation had a readable prior pair. If that pair differs from the new one, the archive ends with it behind a header. If the pair is identical, the archive is unchanged. |
| `Keygen.RotateOverDifferentPairArchives` | cmd/upspin/keygen.go:205-229 | Suppose the stored private key differs from the new key and the archive is writable. Then rotating saves by appending the stored pair behind its header, and leaves the set of unwritable paths as it was. |
| `Keygen.WriteKeysKeepsArchive` | cmd/upspin/keygen.go:171-181 | Writing both key files to writable paths completes and leaves the archive unchanged. |
| `Keygen.StoredPrivateDiffersFromKey` | cmd/upspin/keygen.go:69 | The stored private key, with its seed comment, never equals the bare private key. |
| `Keygen.RerunWithRotateArchivesAgain` | cmd/upspin/keygen.go:209-210 | Suppose keygen has just written a pair and is rerun with `-rotate`, with the seed passed as the flag or with the same entropy. The rerun completes and archives that pair again, because the duplicate check compares the stored key (line 69) with the bare one. |

## Left out

- The gRPC store-cache server (`grpc/storecacheserver/server.go`) and its cache engine are a separate component from the keygen command and are not modelled.
- Flag parsing, usage text, the messages written to stderr, `log.Printf`, and process termination by `Exitf`. Exit is an `ExitReason` in the outcome.
- `ee.GenEntropy` and `ee.CreateKeys` are cryptographic foreign calls. The entropy is an input of 16 bytes, and key creation is a function-valued input that may fail.
- The bodies of `proquint.Encode` and `proquint.Decode`. Only their length contract and, where a lemma needs it, the inverse property are assumed, as predicates on the codec.
- `subcmd.Tilde` home-directory expansion of a seed file name. The flag is used as the path.
- `filepath.Join` path cleaning. Joining is directory + "/" + name.
- In `writeKeyFile`: `MkdirAll`, permission bits, the remove-and-retry after a permission error, partial writes and `Close` errors. An unwritable path fails as a whole and changes nothing. The same holds for the archive open and write in `saveKeys`.
- The formatting of the archive header's time (`ModTime().UTC().Format`). Each file's formatted stamp is an opaque input, and a missing stamp stands for a failed `os.Stat`. Writes do not update the stamps.
- Strings are sequences of characters, one per byte of the Go string; multi-byte UTF-8 is not decoded.
- Strings.TrimSpace: trims ASCII white space only, not the other Unicode spaces (such as U+0085 and U+00A0) that Go's `unicode.IsSpace` accepts for multi-byte runes.

=== FILE: bigendian.dfy ===
/**
 Bytes, 16-bit words, and the two calls keygen makes on encoding/binary's
 BigEndian byte order: Uint16 (two bytes to a word) and PutUint16 (a word
 into a two-byte slice).
 */
module BigEndian {

  type byte = x: int | 0 <= x < 0x100
  type uint16 = x: int | 0 <= x < 0x1_0000

  /** binary.BigEndian.Uint16: the first byte is the high-order one.
      Go panics on a slice shorter than two bytes; extra bytes are ignored. */
  function Uint16(b: seq<byte>): (v: uint16)
    requires |b| >= 2
    ensures v / 0x100 == b[0] && v % 0x100 == b[1]
  {
    b[0] as int * 0x100 + b[1] as int
  }

  /** The two bytes that binary.BigEndian.PutUint16 stores for v. */
  function PutUint16(v: uint16): (b: seq<byte>)
    ensures |b| == 2
    ensures b[0] as int * 0x100 + b[1] as int == v
  {
    [v / 0x100, v % 0x100]
  }

  /** Storing a word and reading it back yields the word. */
  lemma PutThenRead(v: uint16)
    ensures Uint16(PutUint16(v)) == v
  {
  }

  /** Reading a word and storing it back yields the same two bytes. */
  lemma ReadThenPut(b: seq<byte>)
    requires |b| >= 2
    ensures PutUint16(Uint16(b)) == b[..2]
  {
  }
}

=== FILE: filesys.dfy ===
/**
 The file system as keygen sees it: a map from path to contents, the paths
 it cannot read or write, the formatted modification time of each file, and
 the history of completed writes, oldest first, so that their order can be
 stated. A write either completes or changes nothing.
 */
module FileSystem {
  import opened Results

  type Path = string

  /** filepath.Join of a directory and a plain file name. */
  function PathJoin(dir: Path, name: string): (p: Path)
    ensures |p| == |dir| + 1 + |name|
    ensures p[..|dir|] == dir && p[|dir|] == '/' && p[|dir| + 1..] == name
  {
    dir + "/" + name
  }

  /** Two files of one directory are distinct paths exactly when their names differ. */
  lemma PathJoinInjective(dir: Path, a: string, b: string)
    ensures PathJoin(dir, a) == PathJoin(dir, b) <==> a == b
  {
  }

  datatype Mode = Truncate | Append

  datatype Write = Write(path: Path, data: string, mode: Mode)

  datatype FileSys = FileSys(
    files: map<Path, string>,
    modTimes: map<Path, string>,
    unreadable: set<Path>,
    unwritable: set<Path>,
    history: seq<Write>)

  datatype FsError = NotExist(path: Path) | Permission(path: Path)

  /** Everything but the contents of p and the history is as it was. */
  ghost predicate SameExcept(a: FileSys, b: FileSys, p: Path)
  {
    && a.modTimes == b.modTimes
    && a.unreadable == b.unreadable
    && a.unwritable == b.unwritable
    && (forall q :: q != p ==> (q in a.files <==> q in b.files))
    && (forall q :: q != p && q in a.files ==> a.files[q] == b.files[q])
  }

  /** ioutil.ReadFile: a missing file is reported as not existing. */
  function ReadFile(fs: FileSys, p: Path): (r: Result<string, FsError>)
    ensures r.Ok? <==> p in fs.files && p !in fs.unreadable
    ensures r.Ok? ==> r.value == fs.files[p]
    ensures r.Err? ==> r.error.path == p && (r.error.NotExist? <==> p !in fs.files)
  {
    if p !in fs.files then Err(NotExist(p))
    else if p in fs.unreadable then Err(Permission(p))
    else Ok(fs.files[p])
  }

  /** Opening with O_CREATE|O_TRUNC and writing data: the file holds exactly data. */
  function WriteFile(fs: FileSys, p: Path, data: string): (r: Result<FileSys, FsError>)
    ensures r.Ok? <==> p !in fs.unwritable
    ensures r.Err? ==> r.error == Permission(p)
    ensures r.Ok? ==> p in r.value.files && r.value.files[p] == data
    ensures r.Ok? ==> SameExcept(fs, r.value, p)
    ensures r.Ok? ==> r.value.history == fs.history + [Write(p, data, Truncate)]
  {
    if p in fs.unwritable then Err(Permission(p))
    else Ok(fs.(files := fs.files[p := data], history := fs.history + [Write(p, data, Truncate)]))
  }

  /** The contents of p, or nothing if p does not exist. */
  function ContentsOrEmpty(fs: FileSys, p: Path): string
  {
    if p in fs.files then fs.files[p] else ""
  }

  /** Opening with O_CREATE|O_APPEND and writing data: what was there stays,
      and data follows it. */
  function AppendFile(fs: FileSys, p: Path, data: string): (r: Result<FileSys, FsError>)
    ensures r.Ok? <==> p !in fs.unwritable
    ensures r.Err? ==> r.error == Permission(p)
    ensures r.Ok? ==> p in r.value.files && r.value.files[p] == ContentsOrEmpty(fs, p) + data
    ensures r.Ok? ==> SameExcept(fs, r.value, p)
    ensures r.Ok? ==> r.value.history == fs.history + [Write(p, data, Append)]
  {
    if p in fs.unwritable then Err(Permission(p))
    else
      var contents := ContentsOrEmpty(fs, p) + data;
      Ok(fs.(files := fs.files[p := contents], history := fs.history + [Write(p, data, Append)]))
  }

  /** A file that can be read back after it is written holds what was written. */
  lemma ReadAfterWrite(fs: FileSys, p: Path, data: string)
    requires p !in fs.unwritable && p !in fs.unreadable
    ensures WriteFile(fs, p, data).Ok?
    ensures ReadFile(WriteFile(fs, p, data).value, p) == Ok(data)
  {
  }

  /** Appending never loses what a file held: old contents are a prefix. */
  lemma AppendKeepsPrefix(fs: FileSys, p: Path, data: string)
    requires AppendFile(fs, p, data).Ok?
    ensures ContentsOrEmpty(fs, p) <= AppendFile(fs, p, data).value.files[p]
  {
  }

  /** The writes that happened between two states, oldest first. */
  function WritesSince(before: FileSys, after: FileSys): (ws: seq<Write>)
    requires before.history <= after.history
    ensures before.history + ws == after.history
  {
    after.history[|before.history|..]
  }

  /** The paths of a sequence of writes, in the same order. */
  function PathsOf(ws: seq<Write>): (ps: seq<Path>)
    ensures |ps| == |ws|
    ensures forall i :: 0 <= i < |ws| ==> ps[i] == ws[i].path
  {
    seq(|ws|, i requires 0 <= i < |ws| => ws[i].path)
  }
}

=== FILE: keygen.dfy ===
/**
 The keygen command: choose or generate a secret seed, derive a key pair from
 it, archive a prior pair when rotating, and write the new pair to
 secret.upspinkey and then public.upspinkey. Process exit is an outcome value
 that carries the file system as the exit left it.
 */
module Keygen {
  import opened Results
  import opened BigEndian
  import opened Strings
  import opened Proquint
  import opened SecretSeed
  import opened FileSystem

  /** The curves keygen accepts. */
  const Curves: set<string> := {"p256", "p384", "p521"}

  const PublicName: string := "public.upspinkey"
  const SecretName: string := "secret.upspinkey"
  const ArchiveName: string := "secret2.upspinkey"

  function PublicFile(where: Path): Path { PathJoin(where, PublicName) }
  function SecretFile(where: Path): Path { PathJoin(where, SecretName) }
  function ArchiveFile(where: Path): Path { PathJoin(where, ArchiveName) }

  /** The three key files of a directory are three different files. */
  lemma KeyFilesDistinct(where: Path)
    ensures SecretFile(where) != PublicFile(where)
    ensures SecretFile(where) != ArchiveFile(where)
    ensures PublicFile(where) != ArchiveFile(where)
  {
  }

  /** What ee.CreateKeys returns: the public key and the private key. */
  datatype KeyPair = KeyPair(public: string, private: string)

  /** What createKeys returns: the pair and the seed it was derived from. */
  datatype Keys = Keys(public: string, private: string, secret: string)

  /** The errors.E kinds of createKeys, and ee.CreateKeys' own failures. */
  datatype KeygenError = IO(cause: FsError) | Invalid | KeyGeneration(reason: string)

  /** The reasons keygen calls Exitf. */
  datatype ExitReason =
    | NoSuchCurve(curve: string)
    | CreatingKeys(error: KeygenError)
    | NoPriorKeys
    | PriorKeysExist
    | SavingFailed(cause: FsError)
    | WritingFailed(cause: FsError)

  /** Everything keygen takes from outside: the file system, the 16 bytes
      ee.GenEntropy would produce, the proquint codec, and ee.CreateKeys. */
  datatype Env = Env(
    fs: FileSys,
    entropy: seq<byte>,
    codec: Codec,
    createKeys: (string, seq<byte>) -> Result<KeyPair, string>)

  ghost predicate ValidEnv(env: Env)
  {
    |env.entropy| == SecretBytes && WellFormed(env.codec)
  }

  /** The three ways createKeys obtains a seed: generate one from fresh
      entropy, take the flag itself when it looks like a seed, or read the
      file the flag names and trim the white space around its contents.
      Tilde expansion of the file name is not part of this model. */
  function ChooseSecret(env: Env, secretFlag: string): Result<string, KeygenError>
    requires ValidEnv(env)
  {
    if secretFlag == "" then Ok(SeedString(env.entropy, env.codec))
    else if ValidSecretSeed(secretFlag) then Ok(secretFlag)
    else match ReadFile(env.fs, secretFlag)
      case Err(e) => Err(IO(e))
      case Ok(data) => Ok(TrimSpace(data))
  }

  /** createKeys: keys are only ever derived from an accepted seed, from the
      bytes that seed decodes to. The seed is the generated one when there is
      no flag, the flag itself when it looks like a seed, and otherwise the
      trimmed contents of the file the flag names. A generated seed and a
      seed given as the flag are always accepted. */
  function CreateKeys(env: Env, curveName: string, secretFlag: string): (r: Result<Keys, KeygenError>)
    requires ValidEnv(env)
    ensures r.Ok? ==> ValidSecretSeed(r.value.secret)
    ensures r.Ok? ==> env.createKeys(curveName, SeedBytes(r.value.secret, env.codec))
                      == Ok(KeyPair(r.value.public, r.value.private))
    ensures secretFlag == "" && r.Ok? ==> r.value.secret == SeedString(env.entropy, env.codec)
    ensures secretFlag == "" && r.Err? ==> r.error.KeyGeneration?
    ensures secretFlag != "" && ValidSecretSeed(secretFlag) ==>
      && (r.Ok? ==> r.value.secret == secretFlag)
      && (r.Err? ==> r.error.KeyGeneration?)
    ensures secretFlag != "" && !ValidSecretSeed(secretFlag) && r.Ok? ==>
      ReadFile(env.fs, secretFlag).Ok? && r.value.secret == TrimSpace(env.fs.files[secretFlag])
    ensures secretFlag != "" && ValidSecretSeed(secretFlag) ==>
      (r.Ok? <==> env.createKeys(curveName, SeedBytes(secretFlag, env.codec)).Ok?)
    ensures && secretFlag != "" && !ValidSecretSeed(secretFlag)
            && ReadFile(env.fs, secretFlag).Ok?
            && ValidSecretSeed(TrimSpace(env.fs.files[secretFlag])) ==>
      (r.Ok? <==> env.createKeys(curveName, SeedBytes(TrimSpace(env.fs.files[secretFlag]), env.codec)).Ok?)
  {
    SeedStringLayout(env.entropy, env.codec);
    match ChooseSecret(env, secretFlag)
    case Err(e) => Err(e)
    case Ok(secret) =>
      if !ValidSecretSeed(secret) then Err(Invalid)
      else match env.createKeys(curveName, SeedBytes(secret, env.codec))
        case Err(reason) => Err(KeyGeneration(reason))
        case Ok(pair) => Ok(Keys(pair.public, pair.private, secret))
  }

  /** A fresh seed hands ee.CreateKeys exactly the generated entropy. */
  lemma FreshSeedUsesEntropy(env: Env, curveName: string)
    requires ValidEnv(env) && Inverts(env.codec)
    ensures CreateKeys(env, curveName, "").Ok? <==> env.createKeys(curveName, env.entropy).Ok?
    ensures CreateKeys(env, curveName, "").Ok? ==>
      var k := CreateKeys(env, curveName, "").value;
      && k.secret == SeedString(env.entropy, env.codec)
      && env.createKeys(curveName, env.entropy) == Ok(KeyPair(k.public, k.private))
  {
    SeedRoundTrip(env.entropy, env.codec);
  }

  /** Re-creating keys from a written-down seed: passing the generated seed
      back as the flag gives the same keys as the run that generated it. */
  lemma SeedFlagRecreatesKeys(env: Env, curveName: string)
    requires ValidEnv(env) && Inverts(env.codec)
    ensures CreateKeys(env, curveName, SeedString(env.entropy, env.codec)) == CreateKeys(env, curveName, "")
  {
    SeedRoundTrip(env.entropy, env.codec);
    SeedStringLayout(env.entropy, env.codec);
  }

  /** The error cases of createKeys for a flag that is not itself a seed:
      an unreadable file is an IO error, and a file whose trimmed contents
      are not a seed is Invalid; no keys are created in either case. */
  lemma CreateKeysErrors(env: Env, curveName: string, secretFlag: string)
    requires ValidEnv(env) && secretFlag != "" && !ValidSecretSeed(secretFlag)
    ensures ReadFile(env.fs, secretFlag).Err? ==>
      CreateKeys(env, curveName, secretFlag) == Err(IO(ReadFile(env.fs, secretFlag).error))
    ensures ReadFile(env.fs, secretFlag).Ok? && !ValidSecretSeed(TrimSpace(env.fs.files[secretFlag])) ==>
      CreateKeys(env, curveName, secretFlag) == Err(Invalid)
  {
  }

  /** The formatted modification time of the prior secret file, or nothing
      when os.Stat fails. */
  function ModTime(fs: FileSys, p: Path): string
  {
    if p in fs.modTimes then fs.modTimes[p] else ""
  }

  /** The record appended to the archive for a prior key pair. */
  function ArchiveEntry(modtime: string, public: string, private: string): string
  {
    "# EE" + modtime + "\n" + public + private
  }

  datatype SaveOutcome = SaveExit(reason: ExitReason) | SaveFailed(error: FsError) | Saved(fs: FileSys)

  /** At most one append to the archive happened, and nothing else changed. */
  ghost predicate ArchiveOnly(before: FileSys, after: FileSys, where: Path)
  {
    && SameExcept(before, after, ArchiveFile(where))
    && ContentsOrEmpty(before, ArchiveFile(where)) <= ContentsOrEmpty(after, ArchiveFile(where))
    && before.history <= after.history
    && |after.history| <= |before.history| + 1
    && (forall w :: w in WritesSince(before, after) ==> w.path == ArchiveFile(where) && w.mode == Append)
    && (after.history == before.history ==> after.files == before.files)
  }

  /** saveKeys: the prior pair, if any, is archived before it is replaced.
      Only the archive may change, only by appending, and only when rotating
      away from a readable prior pair that differs from the new one. */
  function SaveKeys(fs: FileSys, where: Path, rotate: bool, newPublic: string, newPrivate: string): (r: SaveOutcome)
    ensures r.Saved? ==> ArchiveOnly(fs, r.fs, where)
    ensures r.Saved? && r.fs.history != fs.history ==>
      && rotate
      && ReadFile(fs, SecretFile(where)).Ok? && ReadFile(fs, PublicFile(where)).Ok?
      && (fs.files[PublicFile(where)] != newPublic || fs.files[SecretFile(where)] != newPrivate)
      && ContentsOrEmpty(r.fs, ArchiveFile(where)) == ContentsOrEmpty(fs, ArchiveFile(where))
           + ArchiveEntry(ModTime(fs, SecretFile(where)), fs.files[PublicFile(where)], fs.files[SecretFile(where)])
    ensures r.SaveExit? ==>
      || (r.reason == NoPriorKeys && rotate && SecretFile(where) !in fs.files)
      || (r.reason == PriorKeysExist && !rotate && ReadFile(fs, SecretFile(where)).Ok?)
    ensures r.SaveFailed? <==>
      || (SecretFile(where) in fs.files && SecretFile(where) in fs.unreadable)
      || (rotate && ReadFile(fs, SecretFile(where)).Ok? && ReadFile(fs, PublicFile(where)).Err?)
      || (&& rotate && ReadFile(fs, SecretFile(where)).Ok? && ReadFile(fs, PublicFile(where)).Ok?
          && (fs.files[SecretFile(where)] != newPrivate || fs.files[PublicFile(where)] != newPublic)
          && ArchiveFile(where) in fs.unwritable)
  {
    var publicFile, privateFile, archiveFile := PublicFile(where), SecretFile(where), ArchiveFile(where);
    match ReadFile(fs, privateFile)
    case Err(NotExist(_)) => if rotate then SaveExit(NoPriorKeys) else Saved(fs)
    case Err(e) => SaveFailed(e)
    case Ok(private) =>
      if !rotate then SaveExit(PriorKeysExist)
      else match ReadFile(fs, publicFile)
        case Err(e) => SaveFailed(e)
        case Ok(public) =>
          if public == newPublic && private == newPrivate then Saved(fs)
          else match AppendFile(fs, archiveFile, ArchiveEntry(ModTime(fs, privateFile), public, private))
            case Err(e) => SaveFailed(e)
            case Ok(fs') => Saved(fs')
  }

  /** The decision table of saveKeys. */
  lemma SaveKeysDecisions(fs: FileSys, where: Path, rotate: bool, newPublic: string, newPrivate: string)
    ensures SecretFile(where) !in fs.files && rotate ==>
      SaveKeys(fs, where, rotate, newPublic, newPrivate) == SaveExit(NoPriorKeys)
    ensures SecretFile(where) !in fs.files && !rotate ==>
      SaveKeys(fs, where, rotate, newPublic, newPrivate) == Saved(fs)
    ensures ReadFile(fs, SecretFile(where)).Ok? && !rotate ==>
      SaveKeys(fs, where, rotate, newPublic, newPrivate) == SaveExit(PriorKeysExist)
    ensures ReadFile(fs, SecretFile(where)) == Ok(newPrivate) && ReadFile(fs, PublicFile(where)) == Ok(newPublic) && rotate ==>
      SaveKeys(fs, where, rotate, newPublic, newPrivate) == Saved(fs)
    ensures && ReadFile(fs, SecretFile(where)).Ok? && ReadFile(fs, PublicFile(where)).Ok? && rotate
            && (fs.files[SecretFile(where)] != newPrivate || fs.files[PublicFile(where)] != newPublic)
            && ArchiveFile(where) !in fs.unwritable ==>
      var r := SaveKeys(fs, where, rotate, newPublic, newPrivate);
      && r.Saved?
      && ContentsOrEmpty(r.fs, ArchiveFile(where)) == ContentsOrEmpty(fs, ArchiveFile(where))
           + ArchiveEntry(ModTime(fs, SecretFile(where)), fs.files[PublicFile(where)], fs.files[SecretFile(where)])
  {
  }

  datatype WriteOutcome = AllWritten(fs: FileSys) | WriteFailed(error: FsError, fs: FileSys)

  /** writeKeys: the private key goes to secret.upspinkey first and the public
      key to public.upspinkey second; a failure on the secret file leaves
      everything untouched, a failure on the public file leaves only the
      secret file written. */
  function WriteKeys(fs: FileSys, where: Path, publicKey: string, privateKey: string): (r: WriteOutcome)
    ensures r.AllWritten? <==> SecretFile(where) !in fs.unwritable && PublicFile(where) !in fs.unwritable
    ensures SecretFile(where) in fs.unwritable ==> r == WriteFailed(Permission(SecretFile(where)), fs)
    ensures r.AllWritten? ==>
      && ContentsOrEmpty(r.fs, SecretFile(where)) == privateKey && SecretFile(where) in r.fs.files
      && ContentsOrEmpty(r.fs, PublicFile(where)) == publicKey && PublicFile(where) in r.fs.files
      && r.fs.history == fs.history + [Write(SecretFile(where), privateKey, Truncate), Write(PublicFile(where), publicKey, Truncate)]
    ensures r.WriteFailed? && SecretFile(where) !in fs.unwritable ==>
      && r.error == Permission(PublicFile(where))
      && ContentsOrEmpty(r.fs, SecretFile(where)) == privateKey && SecretFile(where) in r.fs.files
      && (PublicFile(where) in r.fs.files <==> PublicFile(where) in fs.files)
      && (PublicFile(where) in fs.files ==> r.fs.files[PublicFile(where)] == fs.files[PublicFile(where)])
      && r.fs.history == fs.history + [Write(SecretFile(where), privateKey, Truncate)]
    ensures forall p :: p != SecretFile(where) && p != PublicFile(where) ==>
      (p in r.fs.files <==> p in fs.files) && (p in fs.files ==> r.fs.files[p] == fs.files[p])
  {
    KeyFilesDistinct(where);
    match WriteFile(fs, SecretFile(where), privateKey)
    case Err(e) => WriteFailed(e, fs)
    case Ok(fs1) =>
      match WriteFile(fs1, PublicFile(where), publicKey)
      case Err(e) => WriteFailed(e, fs1)
      case Ok(fs2) => AllWritten(fs2)
  }

  /** What keygen stores as the private key: the key, then the seed as a comment. */
  function StoredPrivate(private: string, secret: string): string
  {
    TrimSpace(private) + " # " + secret + "\n"
  }

  datatype Outcome = Completed(fs: FileSys) | Exited(reason: ExitReason, fs: FileSys)

  /** The files written between two states name the archive, then the secret
      file, then the public file, or a prefix of that order, or the secret
      and public files alone or a prefix of those. */
  ghost predicate OrderedWrites(before: FileSys, after: FileSys, where: Path)
  {
    && before.history <= after.history
    && var ps := PathsOf(WritesSince(before, after));
       || ps <= [ArchiveFile(where), SecretFile(where), PublicFile(where)]
       || ps <= [SecretFile(where), PublicFile(where)]
  }

  /** keygenCommand over an abstract file system. An unknown curve exits
      before any key is created; every exit before the key files are written
      leaves the file system as it was; the writes go to the archive, the
      secret file and the public file in that order, and the archive only
      grows; on completion the two key files hold the new pair, the private
      key carrying its seed as a comment. */
  function KeygenCommand(env: Env, where: Path, curve: string, secretseed: string, rotate: bool): (r: Outcome)
    requires ValidEnv(env)
    ensures curve !in Curves ==> r == Exited(NoSuchCurve(curve), env.fs)
    ensures r.Exited? && !r.reason.WritingFailed? ==> r.fs == env.fs
    ensures OrderedWrites(env.fs, r.fs, where)
    ensures ContentsOrEmpty(env.fs, ArchiveFile(where)) <= ContentsOrEmpty(r.fs, ArchiveFile(where))
    ensures r.Completed? ==>
      && curve in Curves
      && CreateKeys(env, curve, secretseed).Ok?
      && var k := CreateKeys(env, curve, secretseed).value;
         && ContentsOrEmpty(r.fs, SecretFile(where)) == StoredPrivate(k.private, k.secret)
         && ContentsOrEmpty(r.fs, PublicFile(where)) == k.public
         && var ps := PathsOf(WritesSince(env.fs, r.fs));
            || ps == [SecretFile(where), PublicFile(where)]
            || ps == [ArchiveFile(where), SecretFile(where), PublicFile(where)]
    ensures forall p :: p != ArchiveFile(where) && p != SecretFile(where) && p != PublicFile(where) ==>
      (p in r.fs.files <==> p in env.fs.files) && (p in env.fs.files ==> r.fs.files[p] == env.fs.files[p])
    ensures r.Completed? <==>
      && curve in Curves
      && CreateKeys(env, curve, secretseed).Ok?
      && var k := CreateKeys(env, curve, secretseed).value;
         && SaveKeys(env.fs, where, rotate, k.public, k.private).Saved?
         && SecretFile(where) !in env.fs.unwritable
         && PublicFile(where) !in env.fs.unwritable
    ensures r.Exited? && r.reason.WritingFailed? ==>
      && curve in Curves
      && CreateKeys(env, curve, secretseed).Ok?
      && var k := CreateKeys(env, curve, secretseed).value;
         var saved := SaveKeys(env.fs, where, rotate, k.public, k.private);
         && saved.Saved?
         && ContentsOrEmpty(r.fs, ArchiveFile(where)) == ContentsOrEmpty(saved.fs, ArchiveFile(where))
         && (PublicFile(where) in r.fs.files <==> PublicFile(where) in env.fs.files)
         && (PublicFile(where) in env.fs.files ==> r.fs.files[PublicFile(where)] == env.fs.files[PublicFile(where)])
         && ContentsOrEmpty(r.fs, SecretFile(where))
              == if SecretFile(where) in env.fs.unwritable then ContentsOrEmpty(env.fs, SecretFile(where))
                 else StoredPrivate(k.private, k.secret)
  {
    KeyFilesDistinct(where);
    if curve !in Curves then Exited(NoSuchCurve(curve), env.fs)
    else match CreateKeys(env, curve, secretseed)
      case Err(e) => Exited(CreatingKeys(e), env.fs)
      case Ok(k) =>
        match SaveKeys(env.fs, where, rotate, k.public, k.private)
        case SaveExit(reason) => Exited(reason, env.fs)
        case SaveFailed(e) => Exited(SavingFailed(e), env.fs)
        case Saved(fs1) =>
          var stored := StoredPrivate(k.private, k.secret);
          var w := WriteKeys(fs1, where, k.public, stored);
          WriteAfterSave(env.fs, fs1, w.fs, where, stored, k.public);
          WriteFailureAfterSave(env.fs, fs1, where, k.public, stored);
          match w
          case WriteFailed(e, fs2) => Exited(WritingFailed(e), fs2)
          case AllWritten(fs2) => Completed(fs2)
  }

  /** Composing at most one archive append with the key writes keeps the
      order archive, secret, public. */
  lemma WriteAfterSave(fs0: FileSys, fs1: FileSys, fs2: FileSys, where: Path, privateKey: string, publicKey: string)
    requires ArchiveOnly(fs0, fs1, where)
    requires
      || fs2.history == fs1.history
      || fs2.history == fs1.history + [Write(SecretFile(where), privateKey, Truncate)]
      || fs2.history == fs1.history + [Write(SecretFile(where), privateKey, Truncate), Write(PublicFile(where), publicKey, Truncate)]
    requires forall p :: p != SecretFile(where) && p != PublicFile(where) ==>
      (p in fs2.files <==> p in fs1.files) && (p in fs1.files ==> fs2.files[p] == fs1.files[p])
    ensures OrderedWrites(fs0, fs2, where)
    ensures ContentsOrEmpty(fs0, ArchiveFile(where)) <= ContentsOrEmpty(fs2, ArchiveFile(where))
    ensures |fs2.history| == |fs1.history| + 2 ==>
      var ps := PathsOf(WritesSince(fs0, fs2));
      || ps == [SecretFile(where), PublicFile(where)]
      || ps == [ArchiveFile(where), SecretFile(where), PublicFile(where)]
  {
  }

  /** A failed key write after a save keeps the archive as the save left it
      and the public file as it was before; the secret file holds the new key
      unless it was the file that could not be written. */
  lemma WriteFailureAfterSave(fs0: FileSys, fs1: FileSys, where: Path, publicKey: string, privateKey: string)
    requires ArchiveOnly(fs0, fs1, where)
    ensures var w := WriteKeys(fs1, where, publicKey, privateKey);
      w.WriteFailed? ==>
      && ContentsOrEmpty(w.fs, ArchiveFile(where)) == ContentsOrEmpty(fs1, ArchiveFile(where))
      && (PublicFile(where) in w.fs.files <==> PublicFile(where) in fs0.files)
      && (PublicFile(where) in fs0.files ==> w.fs.files[PublicFile(where)] == fs0.files[PublicFile(where)])
      && ContentsOrEmpty(w.fs, SecretFile(where))
           == if SecretFile(where) in fs0.unwritable then ContentsOrEmpty(fs0, SecretFile(where)) else privateKey
  {
    KeyFilesDistinct(where);
  }

  /** A first run completes: with a known curve, keys that can be created,
      no prior secret file and writable key files, keygen writes the pair. */
  lemma FirstRunCompletes(env: Env, where: Path, curve: string, secretseed: string)
    requires ValidEnv(env) && curve in Curves && CreateKeys(env, curve, secretseed).Ok?
    requires SecretFile(where) !in env.fs.files
    requires SecretFile(where) !in env.fs.unwritable && PublicFile(where) !in env.fs.unwritable
    ensures KeygenCommand(env, where, curve, secretseed, false).Completed?
  {
    KeyFilesDistinct(where);
  }

  /** A rotation completes: with a readable prior pair and writable key files
      and archive, keygen archives the prior pair (when it differs) and
      writes the new one. */
  lemma RotationCompletes(env: Env, where: Path, curve: string, secretseed: string)
    requires ValidEnv(env) && curve in Curves && CreateKeys(env, curve, secretseed).Ok?
    requires ReadFile(env.fs, SecretFile(where)).Ok? && ReadFile(env.fs, PublicFile(where)).Ok?
    requires SecretFile(where) !in env.fs.unwritable && PublicFile(where) !in env.fs.unwritable
    requires ArchiveFile(where) !in env.fs.unwritable
    ensures KeygenCommand(env, where, curve, secretseed, true).Completed?
  {
    KeyFilesDistinct(where);
  }

  /** Without -rotate keygen never touches the archive: it writes the two key
      files only when no prior secret file exists. */
  lemma NoRotateNeverArchives(env: Env, where: Path, curve: string, secretseed: string)
    requires ValidEnv(env)
    ensures var r := KeygenCommand(env, where, curve, secretseed, false);
      && ContentsOrEmpty(r.fs, ArchiveFile(where)) == ContentsOrEmpty(env.fs, ArchiveFile(where))
      && PathsOf(WritesSince(env.fs, r.fs)) <= [SecretFile(where), PublicFile(where)]
      && (r.Completed? ==> SecretFile(where) !in env.fs.files)
  {
  }

  /** Rotation needs a readable prior pair, and when that pair differs from
      the new one it ends up, behind a header line, at the end of the
      archive. */
  lemma RotateArchivesPriorPair(env: Env, where: Path, curve: string, secretseed: string)
    requires ValidEnv(env)
    ensures var r := KeygenCommand(env, where, curve, secretseed, true);
      r.Completed? ==> ReadFile(env.fs, SecretFile(where)).Ok? && ReadFile(env.fs, PublicFile(where)).Ok?
    ensures
      var r := KeygenCommand(env, where, curve, secretseed, true);
      r.Completed? ==>
      var k := CreateKeys(env, curve, secretseed).value;
      var oldPublic, oldPrivate := env.fs.files[PublicFile(where)], env.fs.files[SecretFile(where)];
      && (oldPublic != k.public || oldPrivate != k.private ==>
            ContentsOrEmpty(r.fs, ArchiveFile(where))
              == ContentsOrEmpty(env.fs, ArchiveFile(where))
                 + ArchiveEntry(ModTime(env.fs, SecretFile(where)), oldPublic, oldPrivate))
      && (oldPublic == k.public && oldPrivate == k.private ==>
            ContentsOrEmpty(r.fs, ArchiveFile(where)) == ContentsOrEmpty(env.fs, ArchiveFile(where)))
  {
  }

  /** The stored private key is never the key itself: it always carries the
      seed comment, which contains a character that is not white space. */
  lemma StoredPrivateDiffersFromKey(private: string, secret: string)
    ensures StoredPrivate(private, secret) != private
  {
    var t := TrimSpace(private);
    var stored := StoredPrivate(private, secret);
    var i :| Trims(private, i, t);
    assert stored[|t| + 1] == '#';
    if |stored| != |private| {
    } else if t == [] {
      assert IsSpace(private[|t| + 1]);
    } else if private[|t| + 1] != '#' {
    } else {
      // The '#' lies inside the trimmed part, so trimming began past index 0.
      assert i > 1;
      assert IsSpace(private[0]);
      assert stored[0] == t[0];
    }
  }

  /** Rotating away from a readable pair whose stored private key differs
      from the new key appends that pair to a writable archive. */
  lemma RotateOverDifferentPairArchives(fs: FileSys, where: Path, public: string, private: string, stored: string)
    requires ReadFile(fs, SecretFile(where)) == Ok(stored) && ReadFile(fs, PublicFile(where)) == Ok(public)
    requires stored != private && ArchiveFile(where) !in fs.unwritable
    ensures var saved := SaveKeys(fs, where, true, public, private);
      && saved.Saved?
      && saved.fs.unwritable == fs.unwritable
      && ContentsOrEmpty(saved.fs, ArchiveFile(where))
           == ContentsOrEmpty(fs, ArchiveFile(where)) + ArchiveEntry(ModTime(fs, SecretFile(where)), public, stored)
  {
  }

  /** Writing both key files to writable paths completes and leaves the
      archive as it was. */
  lemma WriteKeysKeepsArchive(fs: FileSys, where: Path, public: string, private: string)
    requires SecretFile(where) !in fs.unwritable && PublicFile(where) !in fs.unwritable
    ensures var w := WriteKeys(fs, where, public, private);
      && w.AllWritten?
      && ContentsOrEmpty(w.fs, ArchiveFile(where)) == ContentsOrEmpty(fs, ArchiveFile(where))
  {
    KeyFilesDistinct(where);
  }

  /** Running keygen again with -rotate and the same seed, right after it
      wrote a pair, archives that very pair once more: the file holds the
      private key with its seed comment, which never equals the key that
      saveKeys compares it with, so the duplicate check does not fire. */
  lemma RerunWithRotateArchivesAgain(env: Env, where: Path, curve: string, secretseed: string)
    requires ValidEnv(env)
    requires secretseed == "" || ValidSecretSeed(secretseed)
    requires SecretFile(where) !in env.fs.unreadable && PublicFile(where) !in env.fs.unreadable
    requires ArchiveFile(where) !in env.fs.unwritable
    ensures
      KeygenCommand(env, where, curve, secretseed, false).Completed? ==>
      var fs1 := KeygenCommand(env, where, curve, secretseed, false).fs;
      var r := KeygenCommand(env.(fs := fs1), where, curve, secretseed, true);
      var k := CreateKeys(env, curve, secretseed).value;
      && r.Completed?
      && ContentsOrEmpty(r.fs, ArchiveFile(where))
           == ContentsOrEmpty(fs1, ArchiveFile(where))
              + ArchiveEntry(ModTime(fs1, SecretFile(where)), k.public, StoredPrivate(k.private, k.secret))
  {
    if KeygenCommand(env, where, curve, secretseed, false).Completed? {
      KeyFilesDistinct(where);
      var fs1 := KeygenCommand(env, where, curve, secretseed, false).fs;
      var k := CreateKeys(env, curve, secretseed).value;
      var stored := StoredPrivate(k.private, k.secret);
      assert CreateKeys(env.(fs := fs1), curve, secretseed) == CreateKeys(env, curve, secretseed);
      assert fs1.unreadable == env.fs.unreadable && fs1.unwritable == env.fs.unwritable;
      StoredPrivateDiffersFromKey(k.private, k.secret);
      RotateOverDifferentPairArchives(fs1, where, k.public, k.private, stored);
      var saved := SaveKeys(fs1, where, true, k.public, k.private);
      WriteKeysKeepsArchive(saved.fs, where, k.public, stored);
    }
  }
}

=== FILE: proquint.dfy ===
/**
 The proquint identifier scheme as keygen uses it: Encode turns a 16-bit word
 into a five-letter consonant-vowel-consonant-vowel-consonant string and
 Decode reads five letters back into a word. The package's own code is not
 part of this model, so a codec is a pair of function values, and the two
 facts keygen relies on are stated as predicates over it.
 */
module Proquint {
  import opened BigEndian

  /** Every proquint encodes one 16-bit word in this many characters. */
  const EncodedLen: nat := 5

  datatype Codec = Codec(encode: uint16 -> string, decode: string -> uint16)

  /** Encode always produces exactly five characters. */
  ghost predicate WellFormed(c: Codec)
  {
    forall w: uint16 :: |c.encode(w)| == EncodedLen
  }

  /** Decode undoes Encode. */
  ghost predicate Inverts(c: Codec)
  {
    forall w: uint16 :: c.decode(c.encode(w)) == w
  }
}

=== FILE: results.dfy ===
/** Result values standing in for Go's (value, error) returns. */
module Results {

  datatype Result<+T, +E> = Ok(value: T) | Err(error: E)
}

=== FILE: seed.dfy ===
/**
 The textual 128-bit secret seed of the keygen command: eight proquints,
 written "g-g-g-g.g-g-g-g" when a seed is generated, accepted on input by a
 deliberately loose check, and read back by slicing five characters every six.
 */
module SecretSeed {
  import opened BigEndian
  import opened Proquint

  /** Sixteen bytes of secret, as eight big-endian 16-bit words. */
  const SecretBytes: nat := 16
  const GroupCount: nat := 8
  /** A group and the separator that follows it. */
  const Stride: nat := 6
  const SeedLen: nat := 47
  /** The punctuation the generator puts between groups, in order. */
  const Separators: string := "---.---"
  /** Where the separators sit in a generated seed. */
  const SeparatorPositions: set<int> := {5, 11, 17, 23, 29, 35, 41}

  /** validSecretSeed: the only checks are the length and the first separator. */
  predicate ValidSecretSeed(s: string)
  {
    |s| == SeedLen && s[5] == '-'
  }

  ghost predicate AllGroupsWellSized(groups: seq<string>)
  {
    forall g :: g in groups ==> |g| == EncodedLen
  }

  /** The fmt.Sprintf pattern "%s-%s-%s-%s.%s-%s-%s-%s" generalised: the groups
      with one separator character between each pair of neighbours. */
  function Interleave(groups: seq<string>, seps: string): (r: string)
    requires |groups| == |seps| + 1
    decreases |seps|
  {
    if seps == [] then groups[0]
    else groups[0] + [seps[0]] + Interleave(groups[1..], seps[1..])
  }

  /** The i-th 16-bit word of the secret. */
  function Word(b: seq<byte>, i: int): uint16
    requires |b| == SecretBytes && 0 <= i < GroupCount
  {
    Uint16(b[2 * i..2 * i + 2])
  }

  /** The proquint of each word of the secret, in order. */
  function Groups(b: seq<byte>, c: Codec): (gs: seq<string>)
    requires |b| == SecretBytes
    ensures |gs| == GroupCount
    ensures forall i :: 0 <= i < GroupCount ==> gs[i] == c.encode(Word(b, i))
  {
    seq(GroupCount, i requires 0 <= i < GroupCount => c.encode(Word(b, i)))
  }

  /** The seed createKeys prints for a freshly generated secret. */
  function SeedString(b: seq<byte>, c: Codec): string
    requires |b| == SecretBytes
  {
    Interleave(Groups(b, c), Separators)
  }

  /** The five characters that createKeys hands to proquint.Decode for the
      i-th word. A valid seed is long enough for every one of them. */
  function GroupAt(s: string, i: int): (g: string)
    requires ValidSecretSeed(s) && 0 <= i < GroupCount
    ensures |g| == EncodedLen
    ensures forall j :: 0 <= j < EncodedLen ==> g[j] == s[Stride * i + j]
    ensures Stride * i + EncodedLen <= |s|
  {
    s[Stride * i..Stride * i + EncodedLen]
  }

  /** The first 2n bytes that the decode loop writes. */
  function DecodeWords(s: string, c: Codec, n: nat): (b: seq<byte>)
    requires ValidSecretSeed(s) && n <= GroupCount
    ensures |b| == 2 * n
  {
    if n == 0 then []
    else DecodeWords(s, c, n - 1) + PutUint16(c.decode(GroupAt(s, n - 1)))
  }

  /** The 16 bytes createKeys derives from an accepted seed. */
  function SeedBytes(s: string, c: Codec): (b: seq<byte>)
    requires ValidSecretSeed(s)
    ensures |b| == SecretBytes
  {
    DecodeWords(s, c, GroupCount)
  }

  /** The interleaving puts group i at offset 6i and separator i right after it. */
  lemma {:induction false} InterleaveLayout(groups: seq<string>, seps: string)
    requires |groups| == |seps| + 1
    requires AllGroupsWellSized(groups)
    ensures |Interleave(groups, seps)| == Stride * |groups| - 1
    ensures forall i :: 0 <= i < |groups| ==>
      Interleave(groups, seps)[Stride * i..Stride * i + EncodedLen] == groups[i]
    ensures forall i :: 0 <= i < |seps| ==>
      Interleave(groups, seps)[Stride * i + EncodedLen] == seps[i]
    decreases |seps|
  {
    var r := Interleave(groups, seps);
    assert |groups[0]| == EncodedLen;
    if seps != [] {
      var head := groups[0] + [seps[0]];
      var rest := Interleave(groups[1..], seps[1..]);
      assert AllGroupsWellSized(groups[1..]) by {
        forall g | g in groups[1..] ensures |g| == EncodedLen {
          assert g in groups;
        }
      }
      InterleaveLayout(groups[1..], seps[1..]);
      assert r == head + rest;
      assert |head| == Stride;
      forall i | 0 <= i < |groups|
        ensures r[Stride * i..Stride * i + EncodedLen] == groups[i]
      {
        if i > 0 {
          assert r[Stride * i..Stride * i + EncodedLen]
              == rest[Stride * (i - 1)..Stride * (i - 1) + EncodedLen];
          assert groups[1..][i - 1] == groups[i];
        } else {
          assert r[..EncodedLen] == groups[0];
        }
      }
      forall i | 0 <= i < |seps|
        ensures r[Stride * i + EncodedLen] == seps[i]
      {
        if i > 0 {
          assert r[Stride * i + EncodedLen] == rest[Stride * (i - 1) + EncodedLen];
          assert seps[1..][i - 1] == seps[i];
        }
      }
    }
  }

  /** A generated seed is 47 characters, group i sits at [6i, 6i+5), the
      separators are "---.---", and so the seed passes validSecretSeed. */
  lemma SeedStringLayout(b: seq<byte>, c: Codec)
    requires |b| == SecretBytes && WellFormed(c)
    ensures |SeedString(b, c)| == SeedLen
    ensures ValidSecretSeed(SeedString(b, c))
    ensures forall i :: 0 <= i < GroupCount ==>
      GroupAt(SeedString(b, c), i) == c.encode(Word(b, i))
    ensures forall i :: 0 <= i < |Separators| ==>
      SeedString(b, c)[Stride * i + EncodedLen] == Separators[i]
  {
    var gs := Groups(b, c);
    assert AllGroupsWellSized(gs) by {
      forall g | g in gs ensures |g| == EncodedLen {
        var k :| 0 <= k < |gs| && gs[k] == g;
      }
    }
    InterleaveLayout(gs, Separators);
  }

  /** The bytes decoded from a generated seed are the bytes it was generated
      from, whenever proquint Decode undoes Encode. */
  lemma SeedRoundTrip(b: seq<byte>, c: Codec)
    requires |b| == SecretBytes && WellFormed(c) && Inverts(c)
    ensures ValidSecretSeed(SeedString(b, c))
    ensures SeedBytes(SeedString(b, c), c) == b
  {
    SeedStringLayout(b, c);
    DecodePrefix(b, c, GroupCount);
  }

  lemma {:induction false} DecodePrefix(b: seq<byte>, c: Codec, n: nat)
    requires |b| == SecretBytes && WellFormed(c) && Inverts(c) && n <= GroupCount
    requires ValidSecretSeed(SeedString(b, c))
    requires forall i :: 0 <= i < GroupCount ==>
      GroupAt(SeedString(b, c), i) == c.encode(Word(b, i))
    ensures DecodeWords(SeedString(b, c), c, n) == b[..2 * n]
  {
    if n > 0 {
      var s := SeedString(b, c);
      DecodePrefix(b, c, n - 1);
      var w := Word(b, n - 1);
      assert c.decode(GroupAt(s, n - 1)) == w;
      ReadThenPut(b[2 * (n - 1)..2 * n]);
      assert b[..2 * n] == b[..2 * n][..2 * (n - 1)] + b[..2 * n][2 * (n - 1)..];
    }
  }

  /** Decoding reads only the group characters: two accepted seeds that agree
      everywhere except at separator positions give the same bytes. */
  lemma SeparatorsIgnored(s: string, t: string, c: Codec)
    requires ValidSecretSeed(s) && ValidSecretSeed(t)
    requires forall k :: 0 <= k < SeedLen && k !in SeparatorPositions ==> s[k] == t[k]
    ensures SeedBytes(s, c) == SeedBytes(t, c)
  {
    forall i | 0 <= i < GroupCount
      ensures GroupAt(s, i) == GroupAt(t, i)
    {
      forall j | 0 <= j < EncodedLen
        ensures GroupAt(s, i)[j] == GroupAt(t, i)[j]
      {
        assert Stride * i + j !in SeparatorPositions;
      }
    }
    SameGroupsSameBytes(s, t, c, GroupCount);
  }

  lemma {:induction false} SameGroupsSameBytes(s: string, t: string, c: Codec, n: nat)
    requires ValidSecretSeed(s) && ValidSecretSeed(t) && n <= GroupCount
    requires forall i :: 0 <= i < GroupCount ==> GroupAt(s, i) == GroupAt(t, i)
    ensures DecodeWords(s, c, n) == DecodeWords(t, c, n)
  {
    if n > 0 {
      SameGroupsSameBytes(s, t, c, n - 1);
    }
  }

  /** validSecretSeed looks at nothing but the length and index 5: changing any
      other character of an accepted seed keeps it accepted. */
  lemma ValidityIgnoresOtherCharacters(s: string, k: int, ch: char)
    requires ValidSecretSeed(s) && 0 <= k < |s| && k != 5
    ensures ValidSecretSeed(s[k := ch])
  {
  }
}

=== FILE: strings.dfy ===
/**
 strings.TrimSpace as keygen uses it: on the seed read from a file and on the
 private key before the seed comment is appended. A string is a sequence of
 characters, one per byte of the Go string.
 */
module Strings {

  /** The ASCII white space that unicode.IsSpace accepts. */
  predicate IsSpace(c: char)
  {
    c == ' ' || c == '\t' || c == '\n' || c == '\r' || c == '\U{0B}' || c == '\U{0C}'
  }

  /** The number of white-space characters that open s. */
  function LeadingSpaces(s: string): (n: nat)
    ensures n <= |s|
    ensures forall k :: 0 <= k < n ==> IsSpace(s[k])
    ensures n < |s| ==> !IsSpace(s[n])
  {
    if s == [] || !IsSpace(s[0]) then 0 else 1 + LeadingSpaces(s[1..])
  }

  /** The number of white-space characters that close s. */
  function TrailingSpaces(s: string): (n: nat)
    ensures n <= |s|
    ensures forall k :: |s| - n <= k < |s| ==> IsSpace(s[k])
    ensures n < |s| ==> !IsSpace(s[|s| - n - 1])
  {
    if s == [] || !IsSpace(s[|s| - 1]) then 0 else 1 + TrailingSpaces(s[..|s| - 1])
  }

  /** r sits in s at offset i, and everything of s around it is white space. */
  ghost predicate Trims(s: string, i: int, r: string)
  {
    && 0 <= i && i + |r| <= |s|
    && s[i..i + |r|] == r
    && (forall k :: 0 <= k < i ==> IsSpace(s[k]))
    && (forall k :: i + |r| <= k < |s| ==> IsSpace(s[k]))
  }

  /** Neither end of r is white space. */
  predicate Tight(r: string)
  {
    r == [] || (!IsSpace(r[0]) && !IsSpace(r[|r| - 1]))
  }

  /** strings.TrimSpace: s with leading and trailing white space removed. */
  function TrimSpace(s: string): (r: string)
    ensures Tight(r)
    ensures exists i :: Trims(s, i, r)
    ensures r == [] <==> forall k :: 0 <= k < |s| ==> IsSpace(s[k])
  {
    var i := LeadingSpaces(s);
    var t := s[i..];
    var r := t[..|t| - TrailingSpaces(t)];
    assert Trims(s, i, r);
    r
  }

  /** Trimming is determined by its contract: the one tight string that s
      surrounds with white space is TrimSpace(s). */
  lemma TrimSpaceUnique(s: string, i: int, r: string)
    requires Trims(s, i, r) && Tight(r)
    ensures r == TrimSpace(s)
  {
  }

  /** Trimming twice is trimming once. */
  lemma TrimSpaceIdempotent(s: string)
    ensures TrimSpace(TrimSpace(s)) == TrimSpace(s)
  {
  }
}
